=== FILE: README.md ===
# nonebot-plugin-sqlalchemy: the data-source lifecycle and the `hack_func` override, in Dafny

`nonebot_plugin_sqlalchemy` ties a SQLAlchemy async engine and scoped session
to a nonebot driver. A `DataSource` starts out with neither an engine nor a
session. Its startup hook creates the engine, fires the engine-created
callbacks, creates the schema, builds the scoped session and fires the ready
callbacks. Its shutdown hook disposes of the engine and clears both fields.
A run post-processor removes the current scoped session after each matcher
run. The `engine` and `session` properties raise `DataSourceNotReadyError`
while their field is empty. `hack_func` wraps a function with an override
slot that answers calls in its place whenever the slot is not `None`.

The model is functional. A data source is an immutable record. The engine and
session fields are `Option`s and the two callback lists are sequences. Each
asynchronous hook is one atomic step: a pure function from the data source and
its collaborators to a `Step`. A `Step` holds the data source afterwards, the
effects on the collaborators in order, and how the hook ended. The
collaborators are function-typed fields of a `Collaborators` record, each of
which may fail:

- `create_async_engine`;
- calling a user callback;
- `asyncio.gather`;
- `create_all`;
- `dispose`;
- `remove`.

Every callback invocation in the effect log records the engine and session
fields as they were at that moment. The ordering properties of startup are
stated in those terms. As in Python, a field assigned before an exception
keeps its value.

Modules:

- `Wrappers` and `Values` (`base.dfy`): `Option`/`Result`/`Outcome`, Python values, call arguments, exceptions.
- `EngineConfig` (`engine_config.dfy`): the engine keyword options and their defaults.
- `Broadcast` (`broadcast.dfy`): `_fire`.
- `DataSources` (`data_source.dfy`): the data source, its hooks, accessors and registration methods.
- `Lifecycle` (`lifecycle.dfy`): properties of several steps in sequence.
- `HackFunc` (`hack_func.dfy`): the override resolver.

Behaviour of the code worth knowing, all of it modelled as written:

- The default for `echo` is always `False`. The lower-cased log level is compared with the upper-case literal `'TRACE'`, so it never matches (`EngineConfig.EchoDefault`). Statement echoing is therefore never enabled by default, not even at the most verbose level.
- Engine-created callbacks are called with no arguments, although their declared type takes the engine. They can only see the engine through the data source. A callback written to the declared type, taking the engine as its one argument, raises `TypeError` when it is called with none; startup then ends with the engine stored and no schema created. `Broadcast.Fire` records the arguments each callback receives, and the effect log copies them.
- A startup that raises part-way leaves the fields it already assigned. When startup begins without a session, a failed schema creation leaves the engine stored and readable but no session (`Lifecycle.SchemaFailureLeavesEngineWithoutSession`). A second startup without a shutdown in between replaces the engine but keeps the old session until the schema is created again, so after a failure there `session` still returns the old session, bound to the old engine, while `engine` returns the new one. A raising engine-created callback leaves the engine stored and the schema untouched. A raising ready callback leaves both engine and session stored (`DataSources.Startup`).
- Nothing stops a second startup. Shutting down before any startup raises `AttributeError`, because `dispose` is looked up on `None` (`Lifecycle.ShutdownBeforeStartupRaises`).
- The post-processor calls `remove()` on the scoped session directly, and nothing else.

## Model

| member | source | states |
|---|---|---|
| `EngineConfig.LowerChar` | src/nonebot_plugin_sqlalchemy/__init__.py:43 | one character of `str.lower()`, ASCII only: the result is never an ASCII capital; an ASCII capital moves to its lower-case letter and anything else is kept |
| `EngineConfig.Lower` | src/nonebot_plugin_sqlalchemy/__init__.py:43 | `str.lower()` restricted to ASCII capitals: keeps the length and lower-cases each ASCII capital in its own position |
| `EngineConfig.EchoDefault` | src/nonebot_plugin_sqlalchemy/__init__.py:43 | the `echo` default computed from the log level is `False` for every log level, because a lower-cased string can never equal `'TRACE'` |
| `EngineConfig.SetDefault` | src/nonebot_plugin_sqlalchemy/__init__.py:43-44 | `dict.setdefault` adds the key; a value already present is kept, otherwise the default is stored; every other entry is unchanged |
| `EngineConfig.EngineOptions` | src/nonebot_plugin_sqlalchemy/__init__.py:43-44 | every option the caller supplied is kept as given; the options gain exactly `echo` and `future`; an absent `echo` is `False` and an absent `future` is `True` |
| `Broadcast.CallArgs` | src/nonebot_plugin_sqlalchemy/__init__.py:17-21 | absent `args`/`kwargs` become an empty list and an empty dict; given ones are passed on unchanged |
| `Broadcast.CallEach` | src/nonebot_plugin_sqlalchemy/__init__.py:23 | each callback is called once, in list order, with the same arguments, until the first one that raises; if none raises, all are called |
| `Broadcast.Awaitables` | src/nonebot_plugin_sqlalchemy/__init__.py:24 | the filter never grows the list, and every element it keeps is a coroutine that some call returned as an awaitable |
| `Broadcast.AwaitablesMembership` | src/nonebot_plugin_sqlalchemy/__init__.py:24 | an object is awaited if and only if some call returned it as an awaitable; plain results are discarded |
| `Broadcast.AwaitablesAppend` | src/nonebot_plugin_sqlalchemy/__init__.py:24 | the filter keeps call order: the awaitables of a concatenation are the concatenation of the awaitables |
| `Broadcast.AwaitablesOfPlainResults` | src/nonebot_plugin_sqlalchemy/__init__.py:24 | when every call returns a plain value, nothing is awaited |
| `Broadcast.AwaitablesOfAsyncResults` | src/nonebot_plugin_sqlalchemy/__init__.py:24 | when every call returns an awaitable, all of them are awaited, in call order |
| `Broadcast.Fire` | src/nonebot_plugin_sqlalchemy/__init__.py:17-25 | the broadcast records the arguments it passes (absent ones become empty), and each callback is called once, in order, with exactly those. A raise stops the broadcast with that exception before anything is awaited. Otherwise exactly the awaitable results go to `gather`, in call order, and the broadcast ends as the join ends. With no awaitables it completes without waiting |
| `Broadcast.FireReachesGather` | src/nonebot_plugin_sqlalchemy/__init__.py:23-25 | if no callback raises, all of them are called and `gather` is reached |
| `Broadcast.FireSynchronousOnly` | src/nonebot_plugin_sqlalchemy/__init__.py:23-25 | a broadcast to synchronous callbacks awaits nothing and completes |
| `DataSources.SessionOver` | src/nonebot_plugin_sqlalchemy/__init__.py:56-60 | the session startup builds is bound to the new engine, does not expire on commit, and is scoped by `current_matcher.get` |
| `DataSources.Construct` | src/nonebot_plugin_sqlalchemy/__init__.py:33-44 | a new data source has no engine, no session and empty callback lists; it keeps the URL and registry and holds the completed engine options |
| `DataSources.GetEngine` | src/nonebot_plugin_sqlalchemy/__init__.py:80-84 | raises `DataSourceNotReadyError` if and only if there is no engine; otherwise returns the stored engine unchanged |
| `DataSources.GetSession` | src/nonebot_plugin_sqlalchemy/__init__.py:90-94 | raises `DataSourceNotReadyError` if and only if there is no session; otherwise returns the stored session unchanged |
| `DataSources.OnEngineCreated` | src/nonebot_plugin_sqlalchemy/__init__.py:96-98 | appends the action to the end of the engine-created list; earlier entries, the ready list and all other fields are unchanged; duplicates are kept |
| `DataSources.OnReady` | src/nonebot_plugin_sqlalchemy/__init__.py:100-102 | appends the action to the end of the ready list; earlier entries, the engine-created list and all other fields are unchanged; duplicates are kept |
| `DataSources.ReadyPhase` | src/nonebot_plugin_sqlalchemy/__init__.py:59-62 | the session is stored before any ready callback runs and stays stored however the broadcast ends; every ready callback sees it and is invoked with the empty arguments the broadcast passed; when the phase completes, each ready callback was called once, in order |
| `DataSources.SchemaPhase` | src/nonebot_plugin_sqlalchemy/__init__.py:51-62 | schema creation comes first. If it fails, the phase stops there and the session is untouched. Otherwise the session is stored and the ready callbacks follow |
| `DataSources.EnginePhase` | src/nonebot_plugin_sqlalchemy/__init__.py:49-62 | engine-created callbacks see the stored engine and are invoked with the empty arguments the broadcast passed. If that broadcast raises, the phase ends with its exception, the data source unchanged and no schema creation. The session is replaced only after a successful schema creation; once the schema exists the session is stored and the phase ends as the ready broadcast ends. Every ready callback comes after the schema creation and sees the session |
| `DataSources.Startup` | src/nonebot_plugin_sqlalchemy/__init__.py:46-63 | creating the engine is the first effect. A failure there leaves the data source unchanged. Otherwise the engine is stored before any engine-created callback runs, and every callback is invoked with the empty arguments its broadcast passed. If the engine-created broadcast raises, startup ends with that exception, the engine stays stored and the schema is never created. The session is set only after the schema was created; from then on it stays set even if a ready callback raises, and startup ends as the ready broadcast ends. Ready callbacks run after schema creation and see the session. A completed startup leaves engine and session set; callback lists, URL, options and registry are unchanged |
| `DataSources.Shutdown` | src/nonebot_plugin_sqlalchemy/__init__.py:65-72 | with no engine it raises `AttributeError` and changes nothing. Otherwise it disposes of that engine once. On success both fields are cleared; if disposal raises, nothing changes |
| `DataSources.Postprocess` | src/nonebot_plugin_sqlalchemy/__init__.py:74-78 | never changes the data source. With no session it has no effect and completes. With a session it removes it exactly once and ends as the removal ends |
| `Lifecycle.ConstructedIsNotReady` | src/nonebot_plugin_sqlalchemy/__init__.py:34-35 | right after construction both `engine` and `session` raise `DataSourceNotReadyError`; `registry` is available |
| `Lifecycle.RegistryAlwaysAvailable` | src/nonebot_plugin_sqlalchemy/__init__.py:86-88 | the `registry` property never raises and returns the same registry after startup, shutdown, post-processing and either registration |
| `Lifecycle.RegisterReady` | src/nonebot_plugin_sqlalchemy/__init__.py:100-102 | repeated `on_ready` calls leave the ready list extended by the actions in call order, nothing else changed |
| `Lifecycle.RegisterEngineCreated` | src/nonebot_plugin_sqlalchemy/__init__.py:96-98 | repeated `on_engine_created` calls leave the engine-created list extended by the actions in call order, nothing else changed |
| `Lifecycle.CompletedStartupCallsEveryCallbackInOrder` | src/nonebot_plugin_sqlalchemy/__init__.py:46-62 | the effects of a completed startup, in order: engine creation; each engine-created callback once, in order, seeing the new engine; a gather; schema creation; each ready callback once, in order, seeing the session; a gather |
| `Lifecycle.CompletedEnginePhaseInOrder` | src/nonebot_plugin_sqlalchemy/__init__.py:49-62 | the same order for the part of startup after the engine is stored |
| `Lifecycle.SchemaFailureLeavesEngineWithoutSession` | src/nonebot_plugin_sqlalchemy/__init__.py:48-60 | if schema creation fails, startup fails with that error; `engine` then returns the new engine while `session` still raises; no ready callback ran |
| `Lifecycle.RestartSchemaFailureKeepsOldSession` | src/nonebot_plugin_sqlalchemy/__init__.py:48-59 | a second startup whose schema creation fails stores the new engine but keeps the old session, so `engine` and `session` then disagree about the engine |
| `Lifecycle.CompletedStartupIsReady` | src/nonebot_plugin_sqlalchemy/__init__.py:59-62 | after a completed startup both accessors succeed, and the session is bound to the engine |
| `Lifecycle.CompletedShutdownIsNotReady` | src/nonebot_plugin_sqlalchemy/__init__.py:65-78 | after a completed shutdown both accessors raise again, and post-processing has no effect |
| `Lifecycle.PostprocessBeforeStartupIsNoOp` | src/nonebot_plugin_sqlalchemy/__init__.py:74-78 | before startup, post-processing has no effect and completes |
| `Lifecycle.PostprocessWhenReadyRemovesOnce` | src/nonebot_plugin_sqlalchemy/__init__.py:74-78 | once ready, post-processing removes the current session exactly once; running it again behaves the same, since it changes nothing |
| `Lifecycle.ShutdownBeforeStartupRaises` | src/nonebot_plugin_sqlalchemy/__init__.py:65-67 | shutting down a data source that was never started raises `AttributeError` and changes nothing |
| `Lifecycle.RegisteredFresh` | src/nonebot_plugin_sqlalchemy/__init__.py:34-40 | registering callbacks on a new data source leaves it without engine or session, holding exactly the registered lists |
| `Lifecycle.StartupFromFreshCallsInOrder` | src/nonebot_plugin_sqlalchemy/__init__.py:46-62 | from an unstarted data source, a completed startup takes it from not ready to ready and runs both callback lists in order |
| `Lifecycle.CallbacksRunInRegistrationOrder` | src/nonebot_plugin_sqlalchemy/__init__.py:96-102 | callbacks registered on a new data source run during a completed startup in registration order. Each list runs in its own phase, and every invocation carries the empty arguments the broadcast passed. The data source goes from not ready to ready |
| `HackFunc.New` | src/nonebot_plugin_sqlalchemy/hack_func.py:5-7 | stores the wrapped function with its own override variable; the slot starts as `None` and no token has been handed out |
| `HackFunc.Apply` | src/nonebot_plugin_sqlalchemy/hack_func.py:9-12 | the wrapped function is skipped if and only if the slot is not `None`, and then the slot value is returned; otherwise the function is called once with the same arguments and what it returns or raises is passed on unchanged; a call raises only if the wrapped function did |
| `HackFunc.Set` | src/nonebot_plugin_sqlalchemy/hack_func.py:7 | setting the slot changes only the slot and returns a token that is new, belongs to this variable and holds the previous value |
| `HackFunc.Reset` | src/nonebot_plugin_sqlalchemy/hack_func.py:7 | resetting fails if and only if the token was already used (`RuntimeError`, checked first) or belongs to another variable (`ValueError`); otherwise it restores the value the token holds, leaves the wrapped function alone and marks the token used |
| `HackFunc.FreshDelegates` | src/nonebot_plugin_sqlalchemy/hack_func.py:5-12 | a freshly wrapped function delegates every call, with its arguments, exactly once, and has no used token |
| `HackFunc.DelegatedFailurePassesThrough` | src/nonebot_plugin_sqlalchemy/hack_func.py:12 | without an override, the exception the wrapped function raises is the one the call raises |
| `HackFunc.OverrideIgnoresArguments` | src/nonebot_plugin_sqlalchemy/hack_func.py:10-11 | with a non-`None` override K, every call returns K whatever its arguments, without calling the wrapped function |
| `HackFunc.SetNoneRestoresDelegation` | src/nonebot_plugin_sqlalchemy/hack_func.py:10-12 | `None` is not an override: after setting the slot to `None`, calls behave like those of a fresh wrapper |
| `HackFunc.OverriddenCallIsNeverNone` | src/nonebot_plugin_sqlalchemy/hack_func.py:10-11 | a call answered from the slot never returns `None` |
| `HackFunc.SetResetKeepConsistent` | src/nonebot_plugin_sqlalchemy/hack_func.py:7 | `set` and a successful `reset` keep every used token of the variable among the tokens it handed out |
| `HackFunc.SetResetRoundTrip` | src/nonebot_plugin_sqlalchemy/hack_func.py:6-12 | reset with the token of a set succeeds and undoes that set; the wrapped function stays the one stored at construction |
| `HackFunc.ResetTwiceRaises` | src/nonebot_plugin_sqlalchemy/hack_func.py:7 | a token works once: after a successful reset, resetting with it again raises `RuntimeError`, on any wrapper |
| `HackFunc.ForeignTokenRaises` | src/nonebot_plugin_sqlalchemy/hack_func.py:7 | the token of one wrapper's variable, handed to another wrapper, raises `ValueError` |
| `HackFunc.NestedOverridesUnwind` | src/nonebot_plugin_sqlalchemy/hack_func.py:7-12 | nested overrides undone in reverse order both succeed and restore each earlier behaviour in turn |

## Left out

- The SQLAlchemy calls are opaque collaborators that may fail: `create_async_engine`, `engine.begin()` with `run_sync(metadata.create_all)`, `dispose` and `remove`. `sessionmaker` and `async_scoped_session` are plain constructors recorded in `SessionOver`. What these calls do inside the library is not visible here.
- The contents of the `registry()` and the schema DDL: the registry is an opaque identity.
- asyncio concurrency: each hook is one atomic step. `gather` over a non-empty list is an opaque join whose outcome is a parameter. Callbacks still running when a sibling fails, and suspension points, are not modelled.
- Per-task isolation of the `ContextVar`: the override is one slot in one flow of control.
- nonebot plumbing: hook registration (`on_startup`, `on_shutdown`, `run_postprocessor`), `current_matcher` (kept only as the named scope function) and every `logger` call.
- Callbacks that change the data source while it fires them, such as registering more callbacks mid-broadcast: a callback's result depends only on the callback and its arguments.
- The per-scope-key session registry inside `async_scoped_session`: `remove` is an opaque action, so "one live session per matcher" is not modelled.
- `Lower`: models `str.lower()` on ASCII capitals only. Non-ASCII lower-casing is not modelled, including the cases where it changes the length of the string (`'İ'.lower()` has two characters). No character lower-cases to an ASCII capital, so `EchoDefault` is unaffected.
- `LowerChar`: lower-cases ASCII capitals only; a non-ASCII capital such as `'É'` is kept as it is, where Python gives `'é'`.
- `Construct`: takes the log level as a string. A non-string `log_level` would make `.lower()` raise at construction, which is not modelled.
- `Apply`: the wrapped function is a function of its arguments. A Python callable may also read state outside them, such as globals or the time; that dependence is not modelled, though it may return or raise anything.
- `Reset`: the check that a token was created in the same `Context` (`ValueError`) is not modelled, since the slot lives in one flow of control; neither is the `TypeError` for an argument that is not a token. Resetting to a variable's unset state is modelled as restoring `None`, which `get` cannot tell apart.

=== FILE: base.dfy ===
/** Failure-carrying wrappers used for every operation that can raise. */
module Wrappers {

  /** Python's optional attribute: `None` or a value. */
  datatype Option<+T> = None | Some(value: T)

  /** A value-returning operation that either returns or raises `error`. */
  datatype Result<+R, +E> = Success(value: R) | Failure(error: E)

  /** An operation run for its effect that either completes or raises `error`. */
  datatype Outcome<+E> = Pass | Fail(error: E)
}

/** The Python values and exceptions that cross the plugin's boundary. */
module Values {

  /** A Python object as far as the plugin can tell: `None`, a literal, or an opaque object. */
  datatype Value =
    | NoneValue
    | BoolValue(b: bool)
    | IntValue(i: int)
    | StrValue(s: string)
    | ObjectValue(id: nat)

  /** The `*args, **kwargs` of one Python call. */
  datatype Args = Args(positional: seq<Value>, keyword: map<string, Value>)

  /** The call with no arguments at all: `f()`. */
  const NoArgs := Args([], map[])

  /**
    * What can be raised. `DataSourceNotReadyError` is the plugin's own
    * exception; in Python it subclasses `RuntimeError`, so an `except
    * RuntimeError` also catches it, which this flat datatype does not express
    * (nothing in the model catches exceptions). `AttributeError` is what
    * Python raises when a method is looked up on `None`; `RuntimeError` and
    * `ValueError` are what `ContextVar.reset` raises for a token it refuses;
    * `External` stands for anything raised inside the ORM, the event loop or
    * a user function, none of which is modelled.
    */
  datatype Error =
    | DataSourceNotReadyError
    | AttributeError(name: string)
    | RuntimeError(message: string)
    | ValueError(message: string)
    | External(id: nat)
}

=== FILE: broadcast.dfy ===
/**
  * `_fire`: calls every registered callback, then awaits, as one concurrent
  * join, the results that turned out to be awaitable. The callbacks, the
  * objects they return and the join itself are opaque: `Invoker` says what
  * one call produces and `Gatherer` says how the join of a list of
  * awaitables ends.
  */
module Broadcast {
  import opened Wrappers
  import opened Values

  /** A registered callback, known only by its identity. */
  datatype Callback = Callback(id: nat)

  /** An awaitable object, such as the coroutine an `async def` callback returns. */
  datatype Coro = Coro(id: nat)

  /** What one call `f(*args, **kwargs)` does: return a plain value, return an awaitable, or raise. */
  datatype CallResult =
    | Returned(value: Value)
    | Awaitable(coro: Coro)
    | Raised(error: Error)

  type Invoker = (Callback, Args) -> CallResult

  /** How `asyncio.gather` over a non-empty list of awaitables ends. */
  type Gatherer = seq<Coro> -> Outcome<Error>

  /** The calls made so far, and the exception that stopped them, if any. */
  datatype Calls = Calls(results: seq<CallResult>, raised: Option<Error>)

  /**
    * One broadcast: `results[i]` is what the i-th callback returned (the
    * callbacks called are the first `|results|` of the list), each called
    * with `args`; `awaited` is the list handed to `gather`, absent when a
    * call raised before `gather` was reached.
    */
  datatype FireRun = FireRun(args: Args, results: seq<CallResult>, awaited: Option<seq<Coro>>, outcome: Outcome<Error>)

  predicate NoneRaised(rs: seq<CallResult>) {
    forall i :: 0 <= i < |rs| ==> !rs[i].Raised?
  }

  /** The arguments `_fire` passes on: absent `args` and `kwargs` become empty ones. */
  function CallArgs(args: Option<seq<Value>>, kwargs: Option<map<string, Value>>): (a: Args)
    ensures args.None? ==> a.positional == []
    ensures kwargs.None? ==> a.keyword == map[]
    ensures args.Some? ==> a.positional == args.value
    ensures kwargs.Some? ==> a.keyword == kwargs.value
  {
    Args(if args.None? then [] else args.value, if kwargs.None? then map[] else kwargs.value)
  }

  /**
    * `[f(*args, **kwargs) for f in callbacks]`: each callback is called once,
    * in list order, with the same arguments, until one of them raises; the
    * callbacks after it are never called.
    */
  function CallEach(cbs: seq<Callback>, args: Args, invoke: Invoker): (c: Calls)
    ensures |c.results| <= |cbs|
    ensures forall i :: 0 <= i < |c.results| ==> c.results[i] == invoke(cbs[i], args)
    ensures c.raised.None? ==> |c.results| == |cbs| && NoneRaised(c.results)
    ensures c.raised.Some? ==>
              && 0 < |c.results|
              && c.results[|c.results| - 1] == Raised(c.raised.value)
              && NoneRaised(c.results[..|c.results| - 1])
  {
    if cbs == [] then Calls([], None)
    else
      var r := invoke(cbs[0], args);
      if r.Raised? then Calls([r], Some(r.error))
      else
        var rest := CallEach(cbs[1..], args, invoke);
        Calls([r] + rest.results, rest.raised)
  }

  /** `[coro for coro in coros if isawaitable(coro)]`, keeping the order. */
  function Awaitables(rs: seq<CallResult>): (cs: seq<Coro>)
    ensures |cs| <= |rs|
    ensures forall j :: 0 <= j < |cs| ==> Awaitable(cs[j]) in rs
  {
    if rs == [] then []
    else (if rs[0].Awaitable? then [rs[0].coro] else []) + Awaitables(rs[1..])
  }

  /** An awaitable is awaited exactly when some call returned it; plain results are discarded. */
  lemma {:induction false} AwaitablesMembership(rs: seq<CallResult>, c: Coro)
    ensures c in Awaitables(rs) <==> Awaitable(c) in rs
  {
    if rs != [] {
      AwaitablesMembership(rs[1..], c);
      assert rs == [rs[0]] + rs[1..];
    }
  }

  /** Filtering keeps list order: the awaitables of a concatenation are concatenated. */
  lemma {:induction false} AwaitablesAppend(a: seq<CallResult>, b: seq<CallResult>)
    ensures Awaitables(a + b) == Awaitables(a) + Awaitables(b)
  {
    if a == [] {
      assert a + b == b;
    } else {
      var head := if a[0].Awaitable? then [a[0].coro] else [];
      assert (a + b)[0] == a[0];
      assert (a + b)[1..] == a[1..] + b;
      assert Awaitables(a + b) == head + Awaitables(a[1..] + b);
      AwaitablesAppend(a[1..], b);
      assert Awaitables(a) == head + Awaitables(a[1..]);
    }
  }

  /** When every callback is synchronous, nothing is awaited. */
  lemma {:induction false} AwaitablesOfPlainResults(rs: seq<CallResult>)
    requires forall i :: 0 <= i < |rs| ==> rs[i].Returned?
    ensures Awaitables(rs) == []
  {
    if rs != [] {
      AwaitablesOfPlainResults(rs[1..]);
    }
  }

  /** When every callback is asynchronous, every result is awaited, in call order. */
  lemma {:induction false} AwaitablesOfAsyncResults(rs: seq<CallResult>)
    requires forall i :: 0 <= i < |rs| ==> rs[i].Awaitable?
    ensures |Awaitables(rs)| == |rs|
    ensures forall i :: 0 <= i < |rs| ==> Awaitables(rs)[i] == rs[i].coro
  {
    if rs != [] {
      AwaitablesOfAsyncResults(rs[1..]);
    }
  }

  /**
    * `_fire(callbacks, args, kwargs)`. Every callback is called once, in list
    * order, with the same arguments. If a call raises, the broadcast stops
    * there with that exception and nothing is awaited. Otherwise exactly the
    * awaitable results are gathered, in call order; with none, the broadcast
    * completes without waiting on anything.
    */
  function Fire(cbs: seq<Callback>, args: Option<seq<Value>>, kwargs: Option<map<string, Value>>,
                invoke: Invoker, gather: Gatherer): (run: FireRun)
    ensures run.args == CallArgs(args, kwargs)
    ensures |run.results| <= |cbs|
    ensures forall i :: 0 <= i < |run.results| ==> run.results[i] == invoke(cbs[i], run.args)
    ensures run.awaited.Some? <==> |run.results| == |cbs| && NoneRaised(run.results)
    ensures run.awaited.Some? ==> run.awaited.value == Awaitables(run.results)
    ensures run.awaited.None? ==>
              && 0 < |run.results|
              && run.results[|run.results| - 1].Raised?
              && NoneRaised(run.results[..|run.results| - 1])
              && run.outcome == Fail(run.results[|run.results| - 1].error)
    ensures run.awaited == Some([]) ==> run.outcome == Pass
    ensures run.awaited.Some? && run.awaited.value != [] ==> run.outcome == gather(run.awaited.value)
  {
    var a := CallArgs(args, kwargs);
    var calls := CallEach(cbs, a, invoke);
    match calls.raised
    case Some(e) => FireRun(a, calls.results, None, Fail(e))
    case None =>
      var coros := Awaitables(calls.results);
      FireRun(a, calls.results, Some(coros), if coros == [] then Pass else gather(coros))
  }

  /** If no callback raises, every callback is called and the broadcast reaches `gather`. */
  lemma FireReachesGather(cbs: seq<Callback>, args: Option<seq<Value>>, kwargs: Option<map<string, Value>>,
                          invoke: Invoker, gather: Gatherer)
    requires forall i :: 0 <= i < |cbs| ==> !invoke(cbs[i], CallArgs(args, kwargs)).Raised?
    ensures |Fire(cbs, args, kwargs, invoke, gather).results| == |cbs|
    ensures Fire(cbs, args, kwargs, invoke, gather).awaited.Some?
  {
  }

  /** A broadcast to synchronous callbacks only completes without awaiting anything. */
  lemma FireSynchronousOnly(cbs: seq<Callback>, args: Option<seq<Value>>, kwargs: Option<map<string, Value>>,
                            invoke: Invoker, gather: Gatherer)
    requires forall i :: 0 <= i < |cbs| ==> invoke(cbs[i], CallArgs(args, kwargs)).Returned?
    ensures Fire(cbs, args, kwargs, invoke, gather).awaited == Some([])
    ensures Fire(cbs, args, kwargs, invoke, gather).outcome == Pass
  {
    FireReachesGather(cbs, args, kwargs, invoke, gather);
    var run := Fire(cbs, args, kwargs, invoke, gather);
    AwaitablesOfPlainResults(run.results);
  }
}

=== FILE: data_source.dfy ===
/**
  * `DataSource`: an engine slot and a scoped-session slot, both empty until
  * the startup hook fills them and emptied again by the shutdown hook, plus
  * two append-only lists of callbacks fired during startup.
  *
  * Each asynchronous hook is one atomic step: a pure function from the data
  * source and its collaborators to the data source afterwards, the effects
  * it had on the collaborators in order, and how it ended. As in Python,
  * fields assigned before an exception keep their new values.
  */
module DataSources {
  import opened Wrappers
  import opened Values
  import opened Broadcast
  import EngineConfig

  /** The `AsyncEngine` returned by `create_async_engine`, known only by its identity. */
  datatype Engine = Engine(id: nat)

  /** The ORM `registry()` holding the mapped tables; its contents are not modelled. */
  datatype Registry = Registry(id: nat)

  /** `sessionmaker(engine, expire_on_commit=False, class_=AsyncSession)`. */
  datatype SessionFactory = SessionFactory(bind: Engine, expireOnCommit: bool)

  /** The scope function handed to the scoped session: `current_matcher.get`. */
  datatype ScopeFunc = CurrentMatcherGet

  /** `async_scoped_session(factory, scopefunc=...)`. */
  datatype ScopedSession = ScopedSession(factory: SessionFactory, scopefunc: ScopeFunc)

  datatype DataSource = DataSource(
    url: string,
    options: map<string, Value>,
    registry: Registry,
    engine: Option<Engine>,
    session: Option<ScopedSession>,
    onEngineCreated: seq<Callback>,
    onReady: seq<Callback>)

  /** The library calls the hooks make; each is opaque and may raise. */
  datatype Collaborators = Collaborators(
    createEngine: (string, map<string, Value>) -> Result<Engine, Error>,
    invoke: Invoker,
    gather: Gatherer,
    createAll: (Engine, Registry) -> Outcome<Error>,
    dispose: Engine -> Outcome<Error>,
    remove: ScopedSession -> Outcome<Error>)

  datatype Hook = EngineCreatedHook | ReadyHook

  /** What a callback would read through the `engine` and `session` fields at the moment it is called. */
  datatype View = View(engine: Option<Engine>, session: Option<ScopedSession>)

  /** One action on a collaborator, in the order the hooks take them. */
  datatype Effect =
    | CreateEngine(url: string, options: map<string, Value>)
    | Invoke(hook: Hook, callback: Callback, args: Args, view: View)
    | Gather(hook: Hook, coros: seq<Coro>)
    | CreateAll(engine: Engine, registry: Registry)
    | Dispose(engine: Engine)
    | Remove(session: ScopedSession)

  /** The data source after a hook, the effects in order, and how the hook ended. */
  datatype Step = Step(state: DataSource, log: seq<Effect>, outcome: Outcome<Error>)

  function ViewOf(ds: DataSource): View {
    View(ds.engine, ds.session)
  }

  /** The configuration a hook never changes: URL, options, registry and both callback lists. */
  predicate SameConfiguration(a: DataSource, b: DataSource) {
    && a.url == b.url
    && a.options == b.options
    && a.registry == b.registry
    && a.onEngineCreated == b.onEngineCreated
    && a.onReady == b.onReady
  }

  /** The scoped session startup builds over `engine`. */
  function SessionOver(engine: Engine): (s: ScopedSession)
    ensures s.factory.bind == engine && !s.factory.expireOnCommit && s.scopefunc == CurrentMatcherGet
  {
    ScopedSession(SessionFactory(engine, false), CurrentMatcherGet)
  }

  /**
    * `DataSource(driver, url, **kwargs)`: no engine, no session, no
    * callbacks; the engine options are the caller's, completed with the
    * defaults. `logLevel` is `driver.config.log_level`; `registry` is the
    * fresh `registry()`.
    */
  function Construct(url: string, logLevel: string, kwargs: map<string, Value>, registry: Registry): (ds: DataSource)
    ensures ds.engine == None && ds.session == None
    ensures ds.onEngineCreated == [] && ds.onReady == []
    ensures ds.url == url && ds.registry == registry
    ensures ds.options.Keys == kwargs.Keys + {"echo", "future"}
    ensures forall k :: k in kwargs ==> ds.options[k] == kwargs[k]
    ensures "echo" !in kwargs ==> ds.options["echo"] == BoolValue(false)
    ensures "future" !in kwargs ==> ds.options["future"] == BoolValue(true)
  {
    DataSource(url, EngineConfig.EngineOptions(kwargs, logLevel), registry, None, None, [], [])
  }

  /** The `engine` property: the engine, or `DataSourceNotReadyError` exactly when there is none. */
  function GetEngine(ds: DataSource): (r: Result<Engine, Error>)
    ensures r.Failure? <==> ds.engine.None?
    ensures r.Failure? ==> r.error == DataSourceNotReadyError
    ensures r.Success? ==> ds.engine == Some(r.value)
  {
    match ds.engine
    case None => Failure(DataSourceNotReadyError)
    case Some(e) => Success(e)
  }

  /** The `session` property: the scoped session, or `DataSourceNotReadyError` exactly when there is none. */
  function GetSession(ds: DataSource): (r: Result<ScopedSession, Error>)
    ensures r.Failure? <==> ds.session.None?
    ensures r.Failure? ==> r.error == DataSourceNotReadyError
    ensures r.Success? ==> ds.session == Some(r.value)
  {
    match ds.session
    case None => Failure(DataSourceNotReadyError)
    case Some(s) => Success(s)
  }

  /** The `registry` property: available in every state, never raises. */
  function GetRegistry(ds: DataSource): Registry {
    ds.registry
  }

  /** `on_engine_created(action)`: appends to the end of its own list; duplicates are kept. */
  function OnEngineCreated(ds: DataSource, action: Callback): (ds': DataSource)
    ensures |ds'.onEngineCreated| == |ds.onEngineCreated| + 1
    ensures ds'.onEngineCreated[..|ds.onEngineCreated|] == ds.onEngineCreated
    ensures ds'.onEngineCreated[|ds.onEngineCreated|] == action
    ensures ds'.onReady == ds.onReady
    ensures ds' == ds.(onEngineCreated := ds'.onEngineCreated)
  {
    ds.(onEngineCreated := ds.onEngineCreated + [action])
  }

  /** `on_ready(action)`: appends to the end of its own list; duplicates are kept. */
  function OnReady(ds: DataSource, action: Callback): (ds': DataSource)
    ensures |ds'.onReady| == |ds.onReady| + 1
    ensures ds'.onReady[..|ds.onReady|] == ds.onReady
    ensures ds'.onReady[|ds.onReady|] == action
    ensures ds'.onEngineCreated == ds.onEngineCreated
    ensures ds' == ds.(onReady := ds'.onReady)
  {
    ds.(onReady := ds.onReady + [action])
  }

  /**
    * From position `offset` on, `log` holds one invocation per callback of
    * `cbs`, in list order, each with the arguments `args` and seeing `view`,
    * and then the `gather` that ends the broadcast.
    */
  predicate FiredInOrder(log: seq<Effect>, offset: nat, hook: Hook, cbs: seq<Callback>, args: Args, view: View) {
    && offset + |cbs| < |log|
    && (forall i :: 0 <= i < |cbs| ==> log[offset + i] == Invoke(hook, cbs[i], args, view))
    && log[offset + |cbs|].Gather?
  }

  lemma FiredInOrderAfter(prefix: seq<Effect>, log: seq<Effect>, offset: nat, hook: Hook, cbs: seq<Callback>,
                          args: Args, view: View)
    requires FiredInOrder(log, offset, hook, cbs, args, view)
    ensures FiredInOrder(prefix + log, |prefix| + offset, hook, cbs, args, view)
  {
    forall i | 0 <= i < |cbs|
      ensures (prefix + log)[|prefix| + offset + i] == Invoke(hook, cbs[i], args, view)
    {
      assert (prefix + log)[|prefix| + offset + i] == log[offset + i];
    }
  }

  lemma FiredInOrderBefore(log: seq<Effect>, suffix: seq<Effect>, offset: nat, hook: Hook, cbs: seq<Callback>,
                           args: Args, view: View)
    requires FiredInOrder(log, offset, hook, cbs, args, view)
    ensures FiredInOrder(log + suffix, offset, hook, cbs, args, view)
  {
    forall i | 0 <= i < |cbs|
      ensures (log + suffix)[offset + i] == Invoke(hook, cbs[i], args, view)
    {
      assert (log + suffix)[offset + i] == log[offset + i];
    }
  }

  /**
    * The effects of one `_fire` over `cbs`: one invocation per callback
    * called, each with the arguments the broadcast passed and seeing `view`,
    * then the `gather` if it was reached. Nothing else happens.
    */
  function FireLog(hook: Hook, cbs: seq<Callback>, run: FireRun, view: View): (log: seq<Effect>)
    requires |run.results| <= |cbs|
    ensures forall i :: 0 <= i < |log| ==> log[i].Invoke? || log[i].Gather?
    ensures forall i :: 0 <= i < |log| && log[i].Invoke? ==>
              log[i].hook == hook && log[i].args == run.args && log[i].view == view
    ensures run.awaited.Some? && |run.results| == |cbs| ==>
              |log| == |cbs| + 1 && FiredInOrder(log, 0, hook, cbs, run.args, view)
  {
    seq(|run.results|, i requires 0 <= i < |run.results| => Invoke(hook, cbs[i], run.args, view))
    + (if run.awaited.Some? then [Gather(hook, run.awaited.value)] else [])
  }

  /** Startup after the schema exists: store the scoped session, then fire the ready callbacks. */
  function ReadyPhase(ds: DataSource, e: Engine, env: Collaborators): (run: Step)
    ensures run.state == ds.(session := Some(SessionOver(e)))
    ensures forall i :: 0 <= i < |run.log| && run.log[i].Invoke? ==>
              run.log[i].hook == ReadyHook && run.log[i].args == NoArgs && run.log[i].view == ViewOf(run.state)
    ensures run.outcome.Pass? ==>
              |run.log| == |ds.onReady| + 1 && FiredInOrder(run.log, 0, ReadyHook, ds.onReady, NoArgs, ViewOf(run.state))
  {
    var ds2 := ds.(session := Some(SessionOver(e)));
    var ready := Fire(ds2.onReady, None, None, env.invoke, env.gather);
    Step(ds2, FireLog(ReadyHook, ds2.onReady, ready, ViewOf(ds2)), ready.outcome)
  }

  /** Startup once the engine is stored: create the schema; only if that succeeds, go on to the ready phase. */
  function SchemaPhase(ds: DataSource, e: Engine, env: Collaborators): (run: Step)
    ensures SameConfiguration(run.state, ds) && run.state.engine == ds.engine
    ensures 0 < |run.log| && run.log[0] == CreateAll(e, ds.registry)
    ensures env.createAll(e, ds.registry).Fail? ==> run == Step(ds, [CreateAll(e, ds.registry)], env.createAll(e, ds.registry))
    ensures env.createAll(e, ds.registry).Pass? ==> run.state.session == Some(SessionOver(e))
    ensures forall i :: 0 <= i < |run.log| && run.log[i].Invoke? ==>
              && run.log[i].hook == ReadyHook && run.log[i].args == NoArgs && run.log[i].view == ViewOf(run.state)
              && env.createAll(e, ds.registry).Pass?
    ensures run.outcome.Pass? ==>
              && env.createAll(e, ds.registry).Pass?
              && |run.log| == |ds.onReady| + 2
              && FiredInOrder(run.log, 1, ReadyHook, ds.onReady, NoArgs, ViewOf(run.state))
  {
    var schema := env.createAll(e, ds.registry);
    if schema.Fail? then Step(ds, [CreateAll(e, ds.registry)], schema)
    else
      var rest := ReadyPhase(ds, e, env);
      if rest.outcome.Pass? then
        FiredInOrderAfter([CreateAll(e, ds.registry)], rest.log, 0, ReadyHook, ds.onReady, NoArgs, ViewOf(rest.state));
        Step(rest.state, [CreateAll(e, ds.registry)] + rest.log, rest.outcome)
      else
        Step(rest.state, [CreateAll(e, ds.registry)] + rest.log, rest.outcome)
  }

  /** Startup once the engine is stored: fire the engine-created callbacks; only if they all complete, go on. */
  function EnginePhase(ds: DataSource, e: Engine, env: Collaborators): (run: Step)
    requires ds.engine == Some(e)
    ensures SameConfiguration(run.state, ds) && run.state.engine == ds.engine
    ensures forall i :: 0 <= i < |run.log| && run.log[i].Invoke? ==> run.log[i].args == NoArgs
    ensures forall i :: 0 <= i < |run.log| && run.log[i].Invoke? && run.log[i].hook == EngineCreatedHook ==>
              run.log[i].view == ViewOf(ds)
    ensures run.state.session != ds.session ==>
              && run.state.session == Some(SessionOver(e))
              && CreateAll(e, ds.registry) in run.log
              && env.createAll(e, ds.registry) == Pass
    ensures forall i :: 0 <= i < |run.log| && run.log[i].Invoke? && run.log[i].hook == ReadyHook ==>
              && run.log[i].view == ViewOf(run.state)
              && run.state.session == Some(SessionOver(e))
              && exists j :: 0 <= j < i && run.log[j] == CreateAll(e, ds.registry)
    ensures run.outcome.Pass? ==> run.state.session == Some(SessionOver(e))
    // a raising engine-created broadcast ends the phase before the schema is touched
    ensures var fired := Fire(ds.onEngineCreated, None, None, env.invoke, env.gather);
            fired.outcome.Fail? ==>
              && run.state == ds
              && run.outcome == fired.outcome
              && CreateAll(e, ds.registry) !in run.log
    // once the schema exists the session stays stored, even if a ready callback then raises
    ensures Fire(ds.onEngineCreated, None, None, env.invoke, env.gather).outcome.Pass? &&
            env.createAll(e, ds.registry).Pass? ==>
              && run.state == ds.(session := Some(SessionOver(e)))
              && run.outcome == Fire(ds.onReady, None, None, env.invoke, env.gather).outcome
  {
    var fired := Fire(ds.onEngineCreated, None, None, env.invoke, env.gather);
    var log1 := FireLog(EngineCreatedHook, ds.onEngineCreated, fired, ViewOf(ds));
    if fired.outcome.Fail? then Step(ds, log1, fired.outcome)
    else
      var rest := SchemaPhase(ds, e, env);
      var log := log1 + rest.log;
      assert forall i :: 0 <= i < |rest.log| ==> log[|log1| + i] == rest.log[i];
      assert log[|log1|] == CreateAll(e, ds.registry);
      Step(rest.state, log, rest.outcome)
  }

  /**
    * The startup hook: create the engine and store it; fire the
    * engine-created callbacks (with no arguments); create the schema; store
    * the scoped session; fire the ready callbacks. The first step that
    * raises ends the hook, and the fields already assigned stay assigned.
    */
  function Startup(ds: DataSource, env: Collaborators): (run: Step)
    ensures SameConfiguration(run.state, ds)
    ensures 0 < |run.log| && run.log[0] == CreateEngine(ds.url, ds.options)
    // the engine is stored exactly when creating it succeeded
    ensures env.createEngine(ds.url, ds.options).Failure? ==>
              run == Step(ds, [CreateEngine(ds.url, ds.options)], Fail(env.createEngine(ds.url, ds.options).error))
    ensures env.createEngine(ds.url, ds.options).Success? ==>
              run.state.engine == Some(env.createEngine(ds.url, ds.options).value)
    // no callback receives an argument; engine-created callbacks already see the new engine
    ensures forall i :: 0 <= i < |run.log| && run.log[i].Invoke? ==> run.log[i].args == NoArgs
    ensures forall i :: 0 <= i < |run.log| && run.log[i].Invoke? && run.log[i].hook == EngineCreatedHook ==>
              run.log[i].view == View(run.state.engine, ds.session) && run.log[i].view.engine.Some?
    // the session is replaced only after the schema was created without error
    ensures run.state.session != ds.session ==>
              && run.state.engine.Some?
              && run.state.session == Some(SessionOver(run.state.engine.value))
              && CreateAll(run.state.engine.value, ds.registry) in run.log
              && env.createAll(run.state.engine.value, ds.registry) == Pass
    // ready callbacks run only once the session is stored, after the schema creation
    ensures forall i :: 0 <= i < |run.log| && run.log[i].Invoke? && run.log[i].hook == ReadyHook ==>
              && run.log[i].view == ViewOf(run.state)
              && run.state.session == Some(SessionOver(run.state.engine.value))
              && exists j :: 0 <= j < i && run.log[j] == CreateAll(run.state.engine.value, ds.registry)
    // a completed startup leaves the data source ready
    ensures run.outcome.Pass? ==>
              && run.state.engine.Some?
              && run.state.session == Some(SessionOver(run.state.engine.value))
    // a raising broadcast ends the hook; the fields assigned before it stay assigned
    ensures var created := env.createEngine(ds.url, ds.options);
            var fired := Fire(ds.onEngineCreated, None, None, env.invoke, env.gather);
            created.Success? && fired.outcome.Fail? ==>
              && run.state == ds.(engine := Some(created.value))
              && run.outcome == fired.outcome
              && CreateAll(created.value, ds.registry) !in run.log
    ensures var created := env.createEngine(ds.url, ds.options);
            created.Success? &&
            Fire(ds.onEngineCreated, None, None, env.invoke, env.gather).outcome.Pass? &&
            env.createAll(created.value, ds.registry).Pass? ==>
              && run.state == ds.(engine := Some(created.value), session := Some(SessionOver(created.value)))
              && run.outcome == Fire(ds.onReady, None, None, env.invoke, env.gather).outcome
  {
    var created := env.createEngine(ds.url, ds.options);
    if created.Failure? then Step(ds, [CreateEngine(ds.url, ds.options)], Fail(created.error))
    else
      var rest := EnginePhase(ds.(engine := Some(created.value)), created.value, env);
      var log := [CreateEngine(ds.url, ds.options)] + rest.log;
      assert forall i :: 0 <= i < |rest.log| ==> log[1 + i] == rest.log[i];
      Step(rest.state, log, rest.outcome)
  }

  /**
    * The shutdown hook: dispose of the engine, then clear both fields. With
    * no engine, looking up `dispose` on `None` raises `AttributeError`; if
    * disposal raises, neither field is cleared.
    */
  function Shutdown(ds: DataSource, env: Collaborators): (run: Step)
    ensures SameConfiguration(run.state, ds)
    ensures ds.engine.None? ==> run == Step(ds, [], Fail(AttributeError("dispose")))
    ensures ds.engine.Some? ==> run.log == [Dispose(ds.engine.value)] && run.outcome == env.dispose(ds.engine.value)
    ensures run.outcome.Pass? ==> run.state.engine.None? && run.state.session.None?
    ensures run.outcome.Fail? ==> run.state == ds
  {
    match ds.engine
    case None => Step(ds, [], Fail(AttributeError("dispose")))
    case Some(e) =>
      var disposed := env.dispose(e);
      if disposed.Fail? then Step(ds, [Dispose(e)], disposed)
      else Step(ds.(engine := None, session := None), [Dispose(e)], Pass)
  }

  /**
    * The run post-processor: removes the current scoped session when there
    * is one and does nothing otherwise. It never changes the data source.
    */
  function Postprocess(ds: DataSource, env: Collaborators): (run: Step)
    ensures run.state == ds
    ensures ds.session.None? ==> run.log == [] && run.outcome == Pass
    ensures ds.session.Some? ==> run.log == [Remove(ds.session.value)] && run.outcome == env.remove(ds.session.value)
  {
    match ds.session
    case None => Step(ds, [], Pass)
    case Some(s) => Step(ds, [Remove(s)], env.remove(s))
  }
}

=== FILE: engine_config.dfy ===
/**
  * The keyword options a data source passes to `create_async_engine`: the
  * caller's own options, completed with defaults for `echo` and `future`.
  */
module EngineConfig {
  import opened Values

  predicate IsAsciiUpper(c: char) {
    'A' <= c <= 'Z'
  }

  /** `str.lower()` on one character (ASCII letters only; see README). */
  function LowerChar(c: char): (r: char)
    ensures !IsAsciiUpper(r)
    ensures IsAsciiUpper(c) ==> r as int == c as int + 32
    ensures !IsAsciiUpper(c) ==> r == c
  {
    if IsAsciiUpper(c) then (c as int + 32) as char else c
  }

  /** `str.lower()` on ASCII capitals, character by character: same length, each character lower-cased in place. */
  function Lower(s: string): (r: string)
    ensures |r| == |s|
    ensures forall i :: 0 <= i < |s| ==> r[i] == LowerChar(s[i])
  {
    if s == [] then [] else [LowerChar(s[0])] + Lower(s[1..])
  }

  /**
    * The default for `echo`: the configured log level, lower-cased, compared
    * with the upper-case literal "TRACE". The comparison can never hold, so
    * the default is `False` whatever the log level.
    */
  function EchoDefault(logLevel: string): (r: Value)
    ensures r == BoolValue(false)
  {
    var lowered := Lower(logLevel);
    assert 0 < |lowered| ==> !IsAsciiUpper(lowered[0]);
    BoolValue(lowered == "TRACE")
  }

  /** `dict.setdefault(key, value)` on the keyword options. */
  function SetDefault(m: map<string, Value>, key: string, value: Value): (r: map<string, Value>)
    ensures r.Keys == m.Keys + {key}
    ensures r[key] == (if key in m then m[key] else value)
    ensures forall k :: k in m ==> r[k] == m[k]
  {
    if key in m then m else m[key := value]
  }

  /**
    * The options handed to `create_async_engine`: every option the caller
    * supplied is kept as given; `echo` defaults to `False` (whatever the log
    * level) and `future` defaults to `True`.
    */
  function EngineOptions(kwargs: map<string, Value>, logLevel: string): (opts: map<string, Value>)
    ensures opts.Keys == kwargs.Keys + {"echo", "future"}
    ensures forall k :: k in kwargs ==> opts[k] == kwargs[k]
    ensures "echo" !in kwargs ==> opts["echo"] == BoolValue(false)
    ensures "future" !in kwargs ==> opts["future"] == BoolValue(true)
  {
    SetDefault(SetDefault(kwargs, "echo", EchoDefault(logLevel)), "future", BoolValue(true))
  }
}

=== FILE: hack_func.dfy ===
/**
  * `hack_func`: a callable wrapping a function together with an override
  * slot. The slot is a `ContextVar` of its own, defaulting to `None`; here it
  * is that variable in one flow of control. A call returns the slot's value
  * when it is not `None` and otherwise delegates to the wrapped function.
  * The slot is filled and emptied with `ContextVar.set` and
  * `ContextVar.reset`, whose tokens are modelled with the checks `reset`
  * makes on them.
  */
module HackFunc {
  import opened Wrappers
  import opened Values

  /** What one call of the wrapped function does: return a value or raise. */
  type Func = Args -> Result<Value, Error>

  /**
    * The wrapper: `id` identifies its own override variable, `func` is the
    * wrapped function, `hack` the current content of the slot, and `issued`
    * how many tokens `set` on the variable has handed out so far.
    */
  datatype HackFunc = HackFunc(id: nat, func: Func, hack: Value, issued: nat)

  /**
    * One call: what it returns or raises, and the argument lists the wrapped
    * function was called with during it.
    */
  datatype Call = Call(value: Result<Value, Error>, wrappedCalls: seq<Args>)

  /**
    * The token `ContextVar.set` hands back: the variable that made it, its
    * serial number among that variable's tokens, and the value it replaced.
    */
  datatype Token = Token(owner: nat, serial: nat, previous: Value)

  const UsedTokenMessage := "has already been used once"
  const ForeignTokenMessage := "was created by a different ContextVar"

  /**
    * `hack_func(func)`: stores the function; the slot starts out as `None`
    * and no token exists yet. `id` stands for the identity of the new
    * `ContextVar` object, which Python creates afresh for every wrapper, so
    * distinct wrappers must be given distinct ids.
    */
  function New(id: nat, func: Func): (h: HackFunc)
    ensures h.id == id && h.func == func
    ensures h.hack == NoneValue
    ensures h.issued == 0
  {
    HackFunc(id, func, NoneValue, 0)
  }

  /**
    * `__call__(*args, **kwargs)`. With the slot holding something other than
    * `None`, the call returns that value and the wrapped function is not
    * called; otherwise the wrapped function is called exactly once, with the
    * same arguments, and what it returns or raises is passed on unchanged.
    */
  function Apply(h: HackFunc, args: Args): (c: Call)
    ensures c.wrappedCalls == [] <==> h.hack != NoneValue
    ensures c.wrappedCalls == [] ==> c.value == Success(h.hack)
    ensures c.wrappedCalls != [] ==> c.wrappedCalls == [args] && c.value == h.func(args)
    // an exception can only come out of the wrapped function
    ensures c.value.Failure? ==> c.wrappedCalls == [args] && c.value == h.func(args)
  {
    if h.hack != NoneValue then Call(Success(h.hack), []) else Call(h.func(args), [args])
  }

  /** `set(value)` on the slot: fills it and returns a new token holding its previous content. */
  function Set(h: HackFunc, value: Value): (r: (HackFunc, Token))
    ensures r.0.id == h.id && r.0.func == h.func
    ensures r.0.hack == value
    ensures r.0.issued == h.issued + 1
    ensures r.1.owner == h.id && r.1.previous == h.hack
    // the token is one the variable never handed out before
    ensures r.1.serial == h.issued
  {
    (HackFunc(h.id, h.func, value, h.issued + 1), Token(h.id, h.issued, h.hack))
  }

  /**
    * `reset(token)` on the slot, given the tokens already used. A used token
    * raises `RuntimeError`; otherwise a token of another variable raises
    * `ValueError`; otherwise the slot gets back what it held before the
    * matching `set`, and the token is used from then on.
    */
  function Reset(h: HackFunc, token: Token, used: set<Token>): (r: Result<(HackFunc, set<Token>), Error>)
    ensures r.Failure? <==> token in used || token.owner != h.id
    ensures token in used ==> r == Failure(RuntimeError(UsedTokenMessage))
    ensures token !in used && token.owner != h.id ==> r == Failure(ValueError(ForeignTokenMessage))
    ensures r.Success? ==>
              && r.value.0.id == h.id && r.value.0.func == h.func && r.value.0.issued == h.issued
              && r.value.0.hack == token.previous
              && r.value.1 == used + {token}
  {
    if token in used then Failure(RuntimeError(UsedTokenMessage))
    else if token.owner != h.id then Failure(ValueError(ForeignTokenMessage))
    else Success((HackFunc(h.id, h.func, token.previous, h.issued), used + {token}))
  }

  /** Every used token of this wrapper's variable is one the variable handed out. */
  predicate Consistent(h: HackFunc, used: set<Token>) {
    forall t :: t in used && t.owner == h.id ==> t.serial < h.issued
  }

  /** A freshly wrapped function delegates every call. */
  lemma FreshDelegates(id: nat, func: Func, args: Args)
    ensures Apply(New(id, func), args) == Call(func(args), [args])
    ensures Consistent(New(id, func), {})
  {
  }

  /** Without an override, whatever the wrapped function raises is what the call raises. */
  lemma DelegatedFailurePassesThrough(h: HackFunc, args: Args, e: Error)
    requires h.hack == NoneValue
    requires h.func(args) == Failure(e)
    ensures Apply(h, args) == Call(Failure(e), [args])
  {
  }

  /** An override other than `None` answers every call, whatever the arguments, without calling the wrapped function. */
  lemma OverrideIgnoresArguments(h: HackFunc, value: Value, a: Args, b: Args)
    requires value != NoneValue
    ensures Apply(Set(h, value).0, a) == Apply(Set(h, value).0, b) == Call(Success(value), [])
  {
  }

  /** `None` is no override: setting the slot to `None` makes calls delegate again. */
  lemma SetNoneRestoresDelegation(h: HackFunc, args: Args)
    ensures Apply(Set(h, NoneValue).0, args) == Apply(New(h.id, h.func), args)
  {
  }

  /** A call that did not reach the wrapped function returns, and never returns `None`. */
  lemma OverriddenCallIsNeverNone(h: HackFunc, args: Args)
    requires Apply(h, args).wrappedCalls == []
    ensures Apply(h, args).value.Success?
    ensures Apply(h, args).value.value != NoneValue
  {
  }

  /** `set` and a successful `reset` keep every used token of the variable among those it handed out. */
  lemma SetResetKeepConsistent(h: HackFunc, value: Value, token: Token, used: set<Token>)
    requires Consistent(h, used)
    requires token.owner == h.id ==> token.serial < h.issued
    ensures Consistent(Set(h, value).0, used)
    ensures Reset(h, token, used).Success? ==>
              Consistent(Reset(h, token, used).value.0, Reset(h, token, used).value.1)
  {
  }

  /**
    * `reset` with the token of a `set` succeeds and undoes it: calls behave
    * as before the `set`, and the wrapped function is the one stored at
    * construction.
    */
  lemma SetResetRoundTrip(h: HackFunc, value: Value, args: Args, used: set<Token>)
    requires Consistent(h, used)
    ensures var (h1, t) := Set(h, value);
            var r := Reset(h1, t, used);
            && r.Success?
            && r.value.0.func == h.func
            && r.value.0.hack == h.hack
            && Apply(r.value.0, args) == Apply(h, args)
            && Consistent(r.value.0, r.value.1)
  {
    var (h1, t) := Set(h, value);
    assert t !in used;
  }

  /** A token works once: after a successful `reset`, reusing it raises `RuntimeError` on any wrapper. */
  lemma ResetTwiceRaises(h: HackFunc, token: Token, used: set<Token>, later: HackFunc)
    requires Reset(h, token, used).Success?
    ensures Reset(later, token, Reset(h, token, used).value.1) == Failure(RuntimeError(UsedTokenMessage))
  {
  }

  /** A token of one wrapper's variable is refused by every other wrapper with `ValueError`. */
  lemma ForeignTokenRaises(h: HackFunc, other: HackFunc, value: Value, used: set<Token>)
    requires Consistent(h, used)
    requires other.id != h.id
    ensures Reset(other, Set(h, value).1, used) == Failure(ValueError(ForeignTokenMessage))
  {
    var t := Set(h, value).1;
    assert t !in used;
  }

  /** Overrides nest: resetting with the tokens in reverse order restores each earlier slot value in turn. */
  lemma NestedOverridesUnwind(h: HackFunc, outer: Value, inner: Value, args: Args, used: set<Token>)
    requires Consistent(h, used)
    ensures var (h1, t1) := Set(h, outer);
            var (h2, t2) := Set(h1, inner);
            var r2 := Reset(h2, t2, used);
            && r2.Success?
            && Apply(r2.value.0, args) == Apply(h1, args)
            && Reset(r2.value.0, t1, r2.value.1).Success?
            && Apply(Reset(r2.value.0, t1, r2.value.1).value.0, args) == Apply(h, args)
  {
    var (h1, t1) := Set(h, outer);
    var (h2, t2) := Set(h1, inner);
    SetResetRoundTrip(h1, inner, args, used);
    assert t1 != t2;
    assert t1 !in used;
  }
}

=== FILE: lifecycle.dfy ===
/**
  * Properties of whole lifecycles of one data source: construction, callback
  * registration, startup, request post-processing and shutdown in sequence.
  */
module Lifecycle {
  import opened Wrappers
  import opened Values
  import opened Broadcast
  import opened DataSources

  /** A freshly constructed data source is not ready: both accessors raise. */
  lemma ConstructedIsNotReady(url: string, logLevel: string, kwargs: map<string, Value>, registry: Registry)
    ensures GetEngine(Construct(url, logLevel, kwargs, registry)) == Failure(DataSourceNotReadyError)
    ensures GetSession(Construct(url, logLevel, kwargs, registry)) == Failure(DataSourceNotReadyError)
    ensures GetRegistry(Construct(url, logLevel, kwargs, registry)) == registry
  {
  }

  /**
    * The `registry` property never raises, and it returns the registry given
    * at construction whatever the hooks and registrations did in between.
    */
  lemma RegistryAlwaysAvailable(ds: DataSource, env: Collaborators, action: Callback)
    ensures GetRegistry(Startup(ds, env).state) == GetRegistry(ds)
    ensures GetRegistry(Shutdown(ds, env).state) == GetRegistry(ds)
    ensures GetRegistry(Postprocess(ds, env).state) == GetRegistry(ds)
    ensures GetRegistry(OnEngineCreated(ds, action)) == GetRegistry(ds)
    ensures GetRegistry(OnReady(ds, action)) == GetRegistry(ds)
  {
  }

  /** `on_ready` called once per action, in order. */
  function RegisterReady(ds: DataSource, actions: seq<Callback>): (ds': DataSource)
    decreases |actions|
    ensures ds'.onReady == ds.onReady + actions
    ensures ds' == ds.(onReady := ds'.onReady)
  {
    if actions == [] then ds
    else RegisterReady(OnReady(ds, actions[0]), actions[1..])
  }

  /** `on_engine_created` called once per action, in order. */
  function RegisterEngineCreated(ds: DataSource, actions: seq<Callback>): (ds': DataSource)
    decreases |actions|
    ensures ds'.onEngineCreated == ds.onEngineCreated + actions
    ensures ds' == ds.(onEngineCreated := ds'.onEngineCreated)
  {
    if actions == [] then ds
    else RegisterEngineCreated(OnEngineCreated(ds, actions[0]), actions[1..])
  }

  /**
    * A startup that completes has called every engine-created callback and
    * then every ready callback, each once, in registration order, with no
    * arguments; the engine-created ones already saw the engine, the ready
    * ones already saw the session; the schema was created in between.
    */
  lemma CompletedStartupCallsEveryCallbackInOrder(ds: DataSource, env: Collaborators)
    requires Startup(ds, env).outcome.Pass?
    ensures var run := Startup(ds, env);
            var n := |ds.onEngineCreated|;
            && |run.log| == n + |ds.onReady| + 4
            && run.log[0] == CreateEngine(ds.url, ds.options)
            && FiredInOrder(run.log, 1, EngineCreatedHook, ds.onEngineCreated, NoArgs, View(run.state.engine, ds.session))
            && run.log[n + 2] == CreateAll(run.state.engine.value, ds.registry)
            && FiredInOrder(run.log, n + 3, ReadyHook, ds.onReady, NoArgs, ViewOf(run.state))
  {
    var e := env.createEngine(ds.url, ds.options).value;
    var ds1 := ds.(engine := Some(e));
    var rest := EnginePhase(ds1, e, env);
    var head := [CreateEngine(ds.url, ds.options)];
    assert Startup(ds, env) == Step(rest.state, head + rest.log, rest.outcome);
    CompletedEnginePhaseInOrder(ds1, e, env);
    FiredInOrderAfter(head, rest.log, 0, EngineCreatedHook, ds.onEngineCreated, NoArgs, ViewOf(ds1));
    FiredInOrderAfter(head, rest.log, |ds.onEngineCreated| + 2, ReadyHook, ds.onReady, NoArgs, ViewOf(rest.state));
    assert (head + rest.log)[|ds.onEngineCreated| + 2] == rest.log[|ds.onEngineCreated| + 1];
    assert ViewOf(ds1) == View(rest.state.engine, ds.session);
  }

  /** The layout of a completed startup after the engine was stored. */
  lemma CompletedEnginePhaseInOrder(ds: DataSource, e: Engine, env: Collaborators)
    requires ds.engine == Some(e)
    requires EnginePhase(ds, e, env).outcome.Pass?
    ensures var run := EnginePhase(ds, e, env);
            var n := |ds.onEngineCreated|;
            && |run.log| == n + |ds.onReady| + 3
            && FiredInOrder(run.log, 0, EngineCreatedHook, ds.onEngineCreated, NoArgs, ViewOf(ds))
            && run.log[n + 1] == CreateAll(e, ds.registry)
            && FiredInOrder(run.log, n + 2, ReadyHook, ds.onReady, NoArgs, ViewOf(run.state))
  {
    var fired := Fire(ds.onEngineCreated, None, None, env.invoke, env.gather);
    var log1 := FireLog(EngineCreatedHook, ds.onEngineCreated, fired, ViewOf(ds));
    var rest := SchemaPhase(ds, e, env);
    assert fired.outcome.Pass?;
    assert EnginePhase(ds, e, env) == Step(rest.state, log1 + rest.log, rest.outcome);
    FiredInOrderBefore(log1, rest.log, 0, EngineCreatedHook, ds.onEngineCreated, NoArgs, ViewOf(ds));
    FiredInOrderAfter(log1, rest.log, 1, ReadyHook, ds.onReady, NoArgs, ViewOf(rest.state));
    assert (log1 + rest.log)[|log1|] == rest.log[0];
  }

  /**
    * If the schema cannot be created, startup fails with that error and
    * leaves a partial state: the engine is stored and readable, the session
    * is not, and no ready callback has run.
    */
  lemma SchemaFailureLeavesEngineWithoutSession(ds: DataSource, env: Collaborators, e: Engine, err: Error)
    requires ds.session.None?
    requires env.createEngine(ds.url, ds.options) == Success(e)
    requires Fire(ds.onEngineCreated, None, None, env.invoke, env.gather).outcome.Pass?
    requires env.createAll(e, ds.registry) == Fail(err)
    ensures Startup(ds, env).outcome == Fail(err)
    ensures GetEngine(Startup(ds, env).state) == Success(e)
    ensures GetSession(Startup(ds, env).state) == Failure(DataSourceNotReadyError)
    ensures forall i :: 0 <= i < |Startup(ds, env).log| && Startup(ds, env).log[i].Invoke? ==>
              Startup(ds, env).log[i].hook == EngineCreatedHook
  {
  }

  /**
    * Nothing stops a second startup. If its schema creation fails, the new
    * engine is stored but the session from the earlier startup stays, still
    * bound to the earlier engine.
    */
  lemma RestartSchemaFailureKeepsOldSession(ds: DataSource, env: Collaborators, e: Engine, err: Error)
    requires ds.session.Some?
    requires env.createEngine(ds.url, ds.options) == Success(e)
    requires Fire(ds.onEngineCreated, None, None, env.invoke, env.gather).outcome.Pass?
    requires env.createAll(e, ds.registry) == Fail(err)
    ensures Startup(ds, env).outcome == Fail(err)
    ensures GetEngine(Startup(ds, env).state) == Success(e)
    ensures GetSession(Startup(ds, env).state) == Success(ds.session.value)
  {
  }

  /** A completed startup makes both accessors succeed, the session bound to the engine. */
  lemma CompletedStartupIsReady(ds: DataSource, env: Collaborators)
    requires Startup(ds, env).outcome.Pass?
    ensures GetEngine(Startup(ds, env).state).Success?
    ensures GetSession(Startup(ds, env).state)
            == Success(SessionOver(GetEngine(Startup(ds, env).state).value))
  {
  }

  /** After a completed shutdown both accessors raise again, and post-processing does nothing. */
  lemma CompletedShutdownIsNotReady(ds: DataSource, env: Collaborators)
    requires Shutdown(ds, env).outcome.Pass?
    ensures GetEngine(Shutdown(ds, env).state) == Failure(DataSourceNotReadyError)
    ensures GetSession(Shutdown(ds, env).state) == Failure(DataSourceNotReadyError)
    ensures Postprocess(Shutdown(ds, env).state, env) == Step(Shutdown(ds, env).state, [], Pass)
  {
  }

  /** Post-processing before startup touches nothing and cannot fail. */
  lemma PostprocessBeforeStartupIsNoOp(url: string, logLevel: string, kwargs: map<string, Value>,
                                       registry: Registry, env: Collaborators)
    ensures var ds := Construct(url, logLevel, kwargs, registry);
            Postprocess(ds, env) == Step(ds, [], Pass)
  {
  }

  /** Once ready, each post-processing removes the current session exactly once, and repeating it changes nothing else. */
  lemma PostprocessWhenReadyRemovesOnce(ds: DataSource, env: Collaborators)
    requires Startup(ds, env).outcome.Pass?
    ensures var ready := Startup(ds, env).state;
            && Postprocess(ready, env).log == [Remove(ready.session.value)]
            && Postprocess(Postprocess(ready, env).state, env) == Postprocess(ready, env)
  {
  }

  /** Shutting down a data source whose engine was never created raises `AttributeError` and changes nothing. */
  lemma ShutdownBeforeStartupRaises(url: string, logLevel: string, kwargs: map<string, Value>,
                                    registry: Registry, env: Collaborators)
    ensures var ds := Construct(url, logLevel, kwargs, registry);
            Shutdown(ds, env) == Step(ds, [], Fail(AttributeError("dispose")))
  {
  }

  /** Registering callbacks on a fresh data source leaves it unstarted with exactly those callbacks. */
  lemma RegisteredFresh(url: string, logLevel: string, kwargs: map<string, Value>, registry: Registry,
                        created: seq<Callback>, ready: seq<Callback>)
    ensures var ds := RegisterReady(RegisterEngineCreated(Construct(url, logLevel, kwargs, registry), created), ready);
            && ds.engine == None && ds.session == None
            && ds.onEngineCreated == created && ds.onReady == ready
  {
  }

  /**
    * Construct, register callbacks, start up: each list runs in its own
    * registration order with no arguments (the engine-created callbacks are
    * not handed the engine; they see it only through the data source), and
    * the data source goes from not ready to ready.
    */
  lemma CallbacksRunInRegistrationOrder(
    url: string, logLevel: string, kwargs: map<string, Value>, registry: Registry,
    created: seq<Callback>, ready: seq<Callback>, env: Collaborators)
    ensures var ds := RegisterReady(RegisterEngineCreated(Construct(url, logLevel, kwargs, registry), created), ready);
            var up := Startup(ds, env);
            up.outcome.Pass? ==>
            && GetEngine(ds).Failure? && GetSession(ds).Failure?
            && GetEngine(up.state).Success? && GetSession(up.state).Success?
            && |up.log| == |created| + |ready| + 4
            && FiredInOrder(up.log, 1, EngineCreatedHook, created, NoArgs, View(up.state.engine, None))
            && FiredInOrder(up.log, |created| + 3, ReadyHook, ready, NoArgs, ViewOf(up.state))
  {
    var ds := RegisterReady(RegisterEngineCreated(Construct(url, logLevel, kwargs, registry), created), ready);
    RegisteredFresh(url, logLevel, kwargs, registry, created, ready);
    if Startup(ds, env).outcome.Pass? {
      StartupFromFreshCallsInOrder(ds, created, ready, env);
    }
  }

  /** From an unstarted data source, a completed startup goes from not ready to ready and runs both lists in order. */
  lemma StartupFromFreshCallsInOrder(ds: DataSource, created: seq<Callback>, ready: seq<Callback>, env: Collaborators)
    requires ds.engine == None && ds.session == None
    requires ds.onEngineCreated == created && ds.onReady == ready
    requires Startup(ds, env).outcome.Pass?
    ensures var up := Startup(ds, env);
            && GetEngine(ds).Failure? && GetSession(ds).Failure?
            && GetEngine(up.state).Success? && GetSession(up.state).Success?
            && |up.log| == |created| + |ready| + 4
            && FiredInOrder(up.log, 1, EngineCreatedHook, created, NoArgs, View(up.state.engine, None))
            && FiredInOrder(up.log, |created| + 3, ReadyHook, ready, NoArgs, ViewOf(up.state))
  {
    CompletedStartupCallsEveryCallbackInOrder(ds, env);
  }
}
